=== FILE: README.md ===
# jquery-as-template in Dafny

A model of `$.fn.asTemplateWith`, the jQuery plugin that fills in-page HTML
templates from data. A template is the inner HTML of the selected elements;
`${name}` placeholders in it are replaced by the fields of a record, the
template is repeated once per record when the data is an array, and the
copies are joined into one string. Settings (`replaceRegex`, `notFoundValue`,
`repeatSubMatch`) live in one shared record that every call merges its
options into.

The model has five modules:

- `Numbers` (numbers.dfy): decimal text of integers, the text a number field
  becomes when it is substituted, with the parse that inverts it. It agrees
  with JavaScript's number-to-string conversion for integers of magnitude up
  to 2^53; larger integers are idealised as their exact decimal text.
- `Values` (values.dfy): the data as a tagged `Value` (`Str`, `Num`, `Bool`,
  `Null` for null and undefined, `Arr`, `Obj`) instead of `typeof` and
  `instanceof` checks; `Normalise`, which turns an item into the record it is
  expanded against (a scalar becomes `{value: item}`, an array offers its
  indices and `length`, null and undefined throw).
- `Placeholders` (placeholders.dfy): `replacing`. The default pattern
  `\${([^}]+)}` is written as a scanner (`MatchLength`, `Scan`) whose
  matches are characterised exactly (`IsPlaceholder`), the callback as
  `Resolve`, and `Replacing` as scanning followed by rendering. The lemmas
  state what the substitution does to plain text, to each kind of field, to
  the strings that look like placeholders but are not, and at nested level.
- `Expansion` (expansion.dfy): `fromItem`, `fromList` and the body of
  `asTemplateWith` as functions: map over the items (or selected elements),
  then join. Throwing is `None`, both for a null or undefined item and for
  markup whose sub-template expansion throws (the parameter `render`, which
  stands for the DOM work, returns `None` then).
- `Configuration` (configuration.dfy): `$.extend` as the function `Extend`
  and the module-level `settings` record as the class `Settings`, whose
  `Merge` and `AsTemplateWith` update its fields in place.

Substitution is one pass per expansion level: a substituted value that itself
reads `${x}` is copied literally and not looked up again (`SinglePass`).
Values are spliced into the serialised markup as they are, without HTML
escaping.

The data is wrapped in a list of one element only when it is not an array,
and an empty array is not padded, so an empty data array yields the empty
string (`EmptyDataArray`).

## Model

| member | source | states |
|---|---|---|
| `Numbers.NatToString` | src/jquery.as-template.js:70 | the text of a number is non-empty and made of decimal digits; 0 is "0" and no other number's text starts with '0' |
| `Numbers.ParseNatToString` | src/jquery.as-template.js:70 | reading the decimal text of n back gives n |
| `Numbers.NatToStringInjective` | src/jquery.as-template.js:70 | distinct numbers have distinct texts, so array indices name distinct properties |
| `Numbers.IntToString` | src/jquery.as-template.js:70 | a non-negative number is all digits, a negative one is '-' followed by digits; 0 is "0" and no other number has a leading zero |
| `Numbers.ParseIntToString` | src/jquery.as-template.js:70 | reading the text of any integer back gives the integer |
| `Values.PrimitiveText` | src/jquery.as-template.js:70 | a field yields replacement text exactly when its typeof is "string" or "number" |
| `Values.IndexFields` | src/jquery.as-template.js:68-70 | an array read as a record offers each element under its decimal index and its length under "length"; every other key it has is the decimal text of an index |
| `Values.IndicesNameOneElement` | src/jquery.as-template.js:68-70 | two indices with the same name name the same element, and no index is named "length" |
| `Values.LeadingZeroNotIndex` | src/jquery.as-template.js:70 | a key with a leading zero, such as "01", names no property of an array |
| `Values.Normalise` | src/jquery.as-template.js:42-48 | an item has a record exactly when it is neither null or undefined nor an object with an own `valueOf` property (`this.valueOf()` throws on those); an object's record is its own properties |
| `Placeholders.Braced` | src/jquery.as-template.js:27 | `${name}` with a valid name is a match of the pattern |
| `Placeholders.CloseFrom` | src/jquery.as-template.js:27 | finds the first '}' at or after a position, or reports there is none |
| `Placeholders.MatchLength` | src/jquery.as-template.js:27 | a match at the front of a string is found exactly when one exists, and it is the only one (it ends at the first '}') |
| `Placeholders.Scan` | src/jquery.as-template.js:67-68 | the pieces of a scan give back the scanned string, and every captured name is non-empty and free of '}' |
| `Placeholders.Chars` | src/jquery.as-template.js:68 | text scanned character by character gives one piece per character, the i-th being the i-th character as text |
| `Placeholders.Resolve` | src/jquery.as-template.js:68-70 | the callback: a string or number field's text, else the default at root when notFoundValue is not null, else the match; its outcomes are stated by `ReplacingPlaceholder` |
| `Placeholders.Render` | src/jquery.as-template.js:68-71 | the replaced string: characters outside matches copied, each match replaced by the callback; stated by `RenderAppend`, `RenderChars`, `RenderIgnoresFallback` and `RenderKeepsSource` |
| `Placeholders.Replacing` | src/jquery.as-template.js:67-72 | `replacing(template, vals, isRoot)`: the scan of the template rendered; its behaviour is stated by the `Replacing*`, `PlainText*`, `NoCloseUnchanged`, `EmptyNameKept`, `NestedNeverDefaults`, `UnresolvedSurvive` and `SinglePass` lemmas |
| `Placeholders.ScanPlainPrefix` | src/jquery.as-template.js:68 | text in front of which no match starts is scanned as characters and leaves the scan of the rest unchanged |
| `Placeholders.RenderAppend` | src/jquery.as-template.js:68-71 | the replacements of two runs of pieces are the replacements of each, in order |
| `Placeholders.RenderChars` | src/jquery.as-template.js:68-71 | characters outside matches are copied through |
| `Placeholders.ReplacingPlainPrefix` | src/jquery.as-template.js:67-71 | text in front of which no match starts is copied verbatim and the rest is replaced as if alone |
| `Placeholders.PlainTextPrefix` | src/jquery.as-template.js:67-71 | text without a '$' is copied verbatim in front of the replaced rest |
| `Placeholders.PlainTextUnchanged` | src/jquery.as-template.js:67-71 | a template with no "${" is returned unchanged, for every record, level and default |
| `Placeholders.NoCloseUnchanged` | src/jquery.as-template.js:27 | a template with no '}' (such as an unterminated "${abc") is returned unchanged |
| `Placeholders.EmptyNameKept` | src/jquery.as-template.js:27 | "${}" is not a placeholder: it is kept and the rest is replaced as if alone |
| `Placeholders.ScanPlaceholder` | src/jquery.as-template.js:27 | `${name}` at the front scans as one placeholder capturing name, and scanning resumes after its '}' |
| `Placeholders.ReplacingPlaceholder` | src/jquery.as-template.js:68-70 | `${name}` becomes the field's string, the decimal text of its number, the default at root when the field is missing or not a string or number and notFoundValue is not null, and otherwise itself; the rest follows unchanged in order |
| `Placeholders.RenderIgnoresFallback` | src/jquery.as-template.js:69 | below the root the default never takes part in rendering |
| `Placeholders.NestedNeverDefaults` | src/jquery.as-template.js:69 | a nested replacement equals a root replacement whose notFoundValue is null, whatever notFoundValue is |
| `Placeholders.RenderKeepsSource` | src/jquery.as-template.js:69-70 | with nothing substitutable and no default, pieces render to their own text |
| `Placeholders.UnresolvedSurvive` | src/jquery.as-template.js:69-70 | with no string or number field and no default in force, the template comes back unchanged, every placeholder kept for a later pass |
| `Placeholders.SinglePass` | src/jquery.as-template.js:68-71 | a value that reads "${b}" is inserted literally, though b has a value that a second pass would insert |
| `Placeholders.StringField` | src/jquery.as-template.js:68-70 | a template that is one placeholder naming a string field becomes that string |
| `Placeholders.StringFieldThen` | src/jquery.as-template.js:68-70 | a placeholder naming a string field becomes that string, ahead of the rest replaced on its own |
| `Placeholders.TextThenField` | src/jquery.as-template.js:67-71 | text without '$' then a string-field placeholder: the text is copied, the placeholder becomes the field, the rest is replaced on its own |
| `Placeholders.PlainText` | src/jquery.as-template.js:67-71 | text without a '$' comes back unchanged |
| `Placeholders.TwoStringFields` | src/jquery.as-template.js:67-71 | two string-field placeholders between runs of '$'-free text become their fields, the text around them copied in order |
| `Placeholders.GreetingExample` | src/jquery.as-template.js:67-71 | "<span>${greeting}, ${name}!</span>" with greeting "Hi" and name "Sam" at root gives "<span>Hi, Sam!</span>" |
| `Placeholders.MissingFieldExample` | src/jquery.as-template.js:68-70 | "${x}" against an empty record gives "" with the default notFoundValue and "${x}" when notFoundValue is null |
| `Expansion.Join` | src/jquery.as-template.js:43 | the join of per-item results exists exactly when no item threw |
| `Expansion.JoinAppend` | src/jquery.as-template.js:43 | joining two runs of results is joining each and concatenating |
| `Expansion.JoinSingle` | src/jquery.as-template.js:43 | joining one result gives that result |
| `Expansion.Map` | src/jquery.as-template.js:41-43 | `.map(f).get()` gives one result per element, the i-th being f of the i-th element |
| `Expansion.MapAppend` | src/jquery.as-template.js:41-43 | mapping a + b is mapping a, then b |
| `Expansion.FromItem` | src/jquery.as-template.js:46-55 | an item expands exactly when it has a record (see `Values.Normalise`) and the markup for that record does not throw |
| `Expansion.Expansions` | src/jquery.as-template.js:41-42 | the map gives one result per item, the i-th being the i-th item's expansion |
| `Expansion.ExpansionsAppend` | src/jquery.as-template.js:41-42 | the results for items a + b are those for a followed by those for b |
| `Expansion.FromList` | src/jquery.as-template.js:39-44 | `fromList`: the per-item results joined; stated by `FromListAppend`, `FromListSingle`, `FromListPair`, `FromListDefined`, `NullItemThrows` and `NestedListIgnoresFallback` |
| `Expansion.AsList` | src/jquery.as-template.js:35 | data that is an array is the list of items, other data a list of one; stated by `NonArrayDataIsOneItem` and `EmptyDataArray` |
| `Expansion.ElementExpansion` | src/jquery.as-template.js:34-35 | one selected element expanded against the whole data, at root level |
| `Expansion.ElementExpansions` | src/jquery.as-template.js:34-35 | the map gives one result per selected element, the i-th being that element's expansion |
| `Expansion.ElementExpansionsAppend` | src/jquery.as-template.js:34-35 | the results for elements e1 + e2 are those for e1 followed by those for e2 |
| `Expansion.AsTemplate` | src/jquery.as-template.js:34-36 | the per-element results joined; stated by `AsTemplateAppend` and `AsTemplateSingle` |
| `Expansion.FromListAppend` | src/jquery.as-template.js:39-44 | expanding a + b is expanding a then b and concatenating, with no separator |
| `Expansion.FromListSingle` | src/jquery.as-template.js:39-44 | a list of one item expands to that item's expansion |
| `Expansion.FromListPair` | src/jquery.as-template.js:39-44 | expanding [x, y] is the expansion of x followed by that of y |
| `Expansion.FromListDefined` | src/jquery.as-template.js:41-42 | a list expands exactly when every item has a record (none is null, undefined or an object with an own `valueOf`) and no item's markup throws |
| `Expansion.NullItemThrows` | src/jquery.as-template.js:42 | one null or undefined item makes the whole list throw, whatever the markup |
| `Expansion.NonArrayDataIsOneItem` | src/jquery.as-template.js:35 | data that is not an array expands as that single item |
| `Expansion.EmptyDataArray` | src/jquery.as-template.js:35 | an empty data array expands to the empty string |
| `Expansion.ScalarItemIsValueRecord` | src/jquery.as-template.js:48 | a string, number or boolean item expands exactly as the record `{value: item}`, and throws only when the markup for `{value: item}` does |
| `Expansion.ScalarValueResolves` | src/jquery.as-template.js:48 | in a string or number item's record, `${value}` becomes the item's text |
| `Expansion.NestedListIgnoresFallback` | src/jquery.as-template.js:57-63 | a sub-template's expansion (no isRoot) is the same for every notFoundValue and never inserts it |
| `Expansion.AsTemplateAppend` | src/jquery.as-template.js:34-36 | the output for elements e1 + e2 is the output for e1 followed by that for e2 |
| `Expansion.AsTemplateSingle` | src/jquery.as-template.js:34-36 | one selected element gives its data's list expansion at root level with the configured notFoundValue |
| `Configuration.Extend` | src/jquery.as-template.js:33 | `$.extend(settings, options)`: key by key, the supplied value or the previous one; stated by `ExtendKeys`, `ExtendThen`, `ExtendNothing` and `ExtendIdempotent` |
| `Configuration.ExtendKeys` | src/jquery.as-template.js:33 | after a merge each supplied key has the supplied value and every other key its previous value |
| `Configuration.ExtendThen` | src/jquery.as-template.js:33 | two merges in a row equal one merge of the combined options, later keys winning: overrides persist across calls |
| `Configuration.ExtendNothing` | src/jquery.as-template.js:33 | a call without options leaves the settings as they were |
| `Configuration.ExtendIdempotent` | src/jquery.as-template.js:33 | merging the same options twice is merging them once |
| `Configuration.Settings.constructor` | src/jquery.as-template.js:26-30 | the settings start as the default pattern, notFoundValue "" and repeatSubMatch false |
| `Configuration.Settings.Merge` | src/jquery.as-template.js:33 | the new settings are the old ones extended by the options |
| `Configuration.Settings.AsTemplateWith` | src/jquery.as-template.js:32-37 | the settings are merged first and stay merged; when the merged pattern is the default one, the result is every element's expansion under the merged settings, joined in order |

## Left out

- The DOM work done through jQuery (parsing, wrapping in a `<div>`, cloning, the
  class query `$("." + key, tempDom)`, `after`/`replaceWith`/`append`,
  serialising with `.html()`): it is foreign library code. The markup an element
  gives for a record, sub-templates expanded, is the parameter `render`, up to
  the key order noted below; the `repeatSubMatch` branches of `subTemplate`
  exist only as DOM mutation and are reflected only in `render` receiving the
  setting.
- Cloning every item but the last: at root level the nodes are freshly parsed
  from the element's HTML, so reusing them for the last item changes nothing.
  Inside a sub-template, reusing the class-marked element's own nodes for the
  last record is what moves the template's children (or, when
  `repeatSubMatch` is true, the marked element itself) out of the tree before
  the copies go in, so the raw template does not stay in front of them; with
  an empty sub-array nothing is moved and the template's children stay,
  unexpanded, for the root pass to replace. This is DOM work that `render`
  stands for.
- Expansion.ElementMarkup: `render` receives the record as a map, without the
  order of its keys. `for (var key in item)` runs `subTemplate` once per array
  field in that order, each run changing the tree the next one queries, so when
  class-marked elements of two array fields are nested the output depends on
  the order, which the model does not capture.
- Configuration.Settings.AsTemplateWith: says nothing about the result when the
  merged `replaceRegex` is a caller-supplied pattern, because an arbitrary
  regular expression (and the regular-expression engine) is not modelled.
- Numbers that are not integers (fractions, NaN, infinities): fields and items
  hold integers.
- Numbers.IntToString: integers of magnitude above 2^53 are written as their
  exact decimal text; JavaScript holds them as doubles and prints only the
  shortest digits that round-trip, and from 1e21 on in exponent notation.
- A `notFoundValue` that is neither a string nor null (it would be converted to
  text): the setting is a string or null.
- `repeatSubMatch` values other than booleans (JavaScript truthiness).
- Option keys other than the three settings: `$.extend` copies them into the
  settings, where nothing reads them.
- Values.Normalise: objects whose `valueOf` method returns a primitive (a `Date`,
  a boxed string or number) are unwrapped by line 42 and then read as
  `{value: primitive}`, and objects without a prototype have no `valueOf` and
  throw; a `Value` cannot express either (an `Obj` is a plain object with the
  inherited `valueOf`, or with an own non-function `valueOf`, which throws).
- Properties inherited from the object prototype: every one the pattern could
  name is a function or an object, so looking one up gives the default exactly
  as a missing field does; a record is its own properties only.

=== FILE: configuration.dfy ===
/** The plugin's settings: one record shared by every call, into which each
    call's options are merged (`$.extend`) before it expands anything, so an
    override stays in force for later calls until another call overrides the
    same key. */
module Configuration {
  import opened Values
  import opened Placeholders
  import opened Expansion

  /** The `replaceRegex` setting: the default `\${([^}]+)}`, or a pattern a
      caller supplied. Only the default one is modelled. */
  datatype Pattern = DefaultPattern | CustomPattern(source: string)

  /** A value of the settings record. */
  datatype Config = Config(replaceRegex: Pattern, notFoundValue: Fallback, repeatSubMatch: bool)

  /** A call's options: None for a key that is absent or `undefined`, which
      `$.extend` does not copy. */
  datatype Options = Options(replaceRegex: Option<Pattern>, notFoundValue: Option<Fallback>, repeatSubMatch: Option<bool>)

  /** The settings before any call. */
  const Defaults := Config(DefaultPattern, TextFallback(""), false)

  /** No options, as when `options` is not passed. */
  const NoOptions := Options(None, None, None)

  function Pick<T>(supplied: Option<T>, previous: T): T {
    if supplied.Some? then supplied.value else previous
  }

  /** `$.extend(settings, options)`: a shallow merge, key by key. */
  function Extend(c: Config, o: Options): Config {
    Config(Pick(o.replaceRegex, c.replaceRegex),
           Pick(o.notFoundValue, c.notFoundValue),
           Pick(o.repeatSubMatch, c.repeatSubMatch))
  }

  /** The options of two calls in a row: the later call's keys win. */
  function Then(first: Options, second: Options): Options {
    Options(if second.replaceRegex.Some? then second.replaceRegex else first.replaceRegex,
            if second.notFoundValue.Some? then second.notFoundValue else first.notFoundValue,
            if second.repeatSubMatch.Some? then second.repeatSubMatch else first.repeatSubMatch)
  }

  /** Each supplied key takes the supplied value; every other key keeps the
      value it had, whichever earlier call set it. */
  lemma ExtendKeys(c: Config, o: Options)
    ensures var r := Extend(c, o);
            && (o.replaceRegex.Some? ==> r.replaceRegex == o.replaceRegex.value)
            && (o.replaceRegex.None? ==> r.replaceRegex == c.replaceRegex)
            && (o.notFoundValue.Some? ==> r.notFoundValue == o.notFoundValue.value)
            && (o.notFoundValue.None? ==> r.notFoundValue == c.notFoundValue)
            && (o.repeatSubMatch.Some? ==> r.repeatSubMatch == o.repeatSubMatch.value)
            && (o.repeatSubMatch.None? ==> r.repeatSubMatch == c.repeatSubMatch)
  {
  }

  /** Two calls in a row leave the settings as one call with the combined
      options would: overrides persist until overridden. */
  lemma ExtendThen(c: Config, first: Options, second: Options)
    ensures Extend(Extend(c, first), second) == Extend(c, Then(first, second))
  {
  }

  /** A call without options leaves the settings as they were. */
  lemma ExtendNothing(c: Config)
    ensures Extend(c, NoOptions) == c
  {
  }

  /** Repeating the same options changes nothing more. */
  lemma ExtendIdempotent(c: Config, o: Options)
    ensures Extend(Extend(c, o), o) == Extend(c, o)
  {
  }

  /** The module-level `settings` record. */
  class Settings {
    var replaceRegex: Pattern
    var notFoundValue: Fallback
    var repeatSubMatch: bool

    function Current(): Config
      reads this
    {
      Config(replaceRegex, notFoundValue, repeatSubMatch)
    }

    constructor()
      ensures Current() == Defaults
    {
      replaceRegex := DefaultPattern;
      notFoundValue := TextFallback("");
      repeatSubMatch := false;
    }

    /** `settings = $.extend(settings, options)`. */
    method Merge(options: Options)
      modifies this
      ensures Current() == Extend(old(Current()), options)
    {
      if options.replaceRegex.Some? {
        replaceRegex := options.replaceRegex.value;
      }
      if options.notFoundValue.Some? {
        notFoundValue := options.notFoundValue.value;
      }
      if options.repeatSubMatch.Some? {
        repeatSubMatch := options.repeatSubMatch.value;
      }
    }

    /** `$(elements).asTemplateWith(data, options)`: merge the options into
        the settings, then expand each element's inner HTML against the data
        with the merged settings. None when the call throws. The result is
        described only when the merged pattern is the default one. */
    method AsTemplateWith(elements: seq<string>, render: (string, bool, Record) -> Option<string>, data: Value, options: Options)
      returns (html: Option<string>)
      modifies this
      ensures Current() == Extend(old(Current()), options)
      ensures replaceRegex == DefaultPattern ==> html == AsTemplate(elements, render, data, notFoundValue, repeatSubMatch)
    {
      Merge(options);
      html := AsTemplate(elements, render, data, notFoundValue, repeatSubMatch);
    }
  }
}

=== FILE: expansion.dfy ===
/** Expansion of a template against its data: every item gives one copy of
    the template's markup with its placeholders replaced, and the copies are
    joined in order with no separator.

    The DOM work (parsing an element's inner HTML, wrapping it in a `<div>`,
    expanding class-marked sub-templates and serialising the tree) is not
    modelled: `render(html, repeatSubMatch, record)` stands for the markup it
    produces for one record, and `markup` for that markup once the element
    and the setting are fixed. Either is None when that work throws, as the
    nested `fromList` of a sub-template does on a null or undefined item. */
module Expansion {
  import opened Values
  import opened Placeholders

  /** `.get().join("")` over the per-part results: None when a part threw,
      which makes the whole call throw. */
  function Join(parts: seq<Option<string>>): (r: Option<string>)
    ensures r.Some? <==> forall i :: 0 <= i < |parts| ==> parts[i].Some?
    decreases |parts|
  {
    if parts == [] then Some("")
    else
      match parts[0]
      case None => None
      case Some(head) =>
        match Join(parts[1..])
        case None => None
        case Some(tail) => Some(head + tail)
  }

  /** Two joined results placed one after the other. */
  function Both(x: Option<string>, y: Option<string>): Option<string> {
    if x.Some? && y.Some? then Some(x.value + y.value) else None
  }

  lemma {:induction false} JoinAppend(a: seq<Option<string>>, b: seq<Option<string>>)
    ensures Join(a + b) == Both(Join(a), Join(b))
    decreases |a|
  {
    if a == [] {
      assert a + b == b;
      if Join(b).Some? { assert "" + Join(b).value == Join(b).value; }
    } else {
      assert (a + b)[0] == a[0];
      assert (a + b)[1..] == a[1..] + b;
      JoinAppend(a[1..], b);
      if a[0].Some? && Join(a[1..]).Some? && Join(b).Some? {
        assert a[0].value + (Join(a[1..]).value + Join(b).value)
            == (a[0].value + Join(a[1..]).value) + Join(b).value;
      }
    }
  }

  lemma JoinSingle(x: Option<string>)
    ensures Join([x]) == x
  {
    assert [x][1..] == [];
    if x.Some? { assert x.value + "" == x.value; }
  }

  /** `$(xs).map(f).get()`: f applied to each element of xs, in order. */
  function Map<A, B>(f: A -> B, xs: seq<A>): (r: seq<B>)
    ensures |r| == |xs|
    ensures forall i :: 0 <= i < |xs| ==> r[i] == f(xs[i])
  {
    seq(|xs|, i requires 0 <= i < |xs| => f(xs[i]))
  }

  lemma MapAppend<A, B>(f: A -> B, a: seq<A>, b: seq<A>)
    ensures Map(f, a + b) == Map(f, a) + Map(f, b)
  {
    var x := Map(f, a + b);
    var y := Map(f, a) + Map(f, b);
    forall i | 0 <= i < |x|
      ensures x[i] == y[i]
    {
      if i < |a| {
        assert (a + b)[i] == a[i];
      } else {
        assert (a + b)[i] == b[i - |a|];
      }
    }
  }

  /** `fromItem`: the item's record (a scalar becomes `{value: item}`), the
      markup for it, then the placeholders of that markup replaced from the
      record. None when the item is null or undefined, or when the markup
      cannot be built for its record. */
  function FromItem(markup: Record -> Option<string>, item: Value, isRoot: bool, fallback: Fallback): (r: Option<string>)
    ensures r.Some? <==> Normalise(item).Some? && markup(Normalise(item).value).Some?
  {
    match Normalise(item)
    case None => None
    case Some(vals) =>
      match markup(vals)
      case None => None
      case Some(text) => Some(Replacing(text, vals, isRoot, fallback))
  }

  /** The per-item results of `$(items).map(...)`, in index order. */
  function Expansions(markup: Record -> Option<string>, items: seq<Value>, isRoot: bool, fallback: Fallback): (r: seq<Option<string>>)
    ensures |r| == |items|
    ensures forall i :: 0 <= i < |items| ==> r[i] == FromItem(markup, items[i], isRoot, fallback)
  {
    Map(item => FromItem(markup, item, isRoot, fallback), items)
  }

  /** `fromList`: one expansion per item, joined in index order. */
  function FromList(markup: Record -> Option<string>, items: seq<Value>, isRoot: bool, fallback: Fallback): Option<string> {
    Join(Expansions(markup, items, isRoot, fallback))
  }

  /** Data that is not an array is expanded as a list of one. */
  function AsList(data: Value): (items: seq<Value>) {
    if data.Arr? then data.items else [data]
  }

  /** The markup one selected element's inner HTML gives for a record. */
  function ElementMarkup(render: (string, bool, Record) -> Option<string>, html: string, repeatSubMatch: bool): Record -> Option<string> {
    vals => render(html, repeatSubMatch, vals)
  }

  /** One selected element expanded against the whole data at root level. */
  function ElementExpansion(html: string, render: (string, bool, Record) -> Option<string>, data: Value,
                            fallback: Fallback, repeatSubMatch: bool): Option<string> {
    FromList(ElementMarkup(render, html, repeatSubMatch), AsList(data), true, fallback)
  }

  /** The per-element results of `this.map(...)`, in selection order. */
  function ElementExpansions(elements: seq<string>, render: (string, bool, Record) -> Option<string>, data: Value,
                             fallback: Fallback, repeatSubMatch: bool): (r: seq<Option<string>>)
    ensures |r| == |elements|
    ensures forall i :: 0 <= i < |elements| ==> r[i] == ElementExpansion(elements[i], render, data, fallback, repeatSubMatch)
  {
    Map(html => ElementExpansion(html, render, data, fallback, repeatSubMatch), elements)
  }

  /** The body of `asTemplateWith` after the settings merge: the element
      results joined in selection order. */
  function AsTemplate(elements: seq<string>, render: (string, bool, Record) -> Option<string>, data: Value,
                      fallback: Fallback, repeatSubMatch: bool): Option<string>
  {
    Join(ElementExpansions(elements, render, data, fallback, repeatSubMatch))
  }

  lemma ExpansionsAppend(markup: Record -> Option<string>, a: seq<Value>, b: seq<Value>, isRoot: bool, fallback: Fallback)
    ensures Expansions(markup, a + b, isRoot, fallback)
            == Expansions(markup, a, isRoot, fallback) + Expansions(markup, b, isRoot, fallback)
  {
    MapAppend(item => FromItem(markup, item, isRoot, fallback), a, b);
  }


  /** A list expands to the expansion of its first part followed by that of
      its second part: n items give exactly n results, in index order. */
  lemma FromListAppend(markup: Record -> Option<string>, a: seq<Value>, b: seq<Value>, isRoot: bool, fallback: Fallback)
    ensures FromList(markup, a + b, isRoot, fallback)
            == Both(FromList(markup, a, isRoot, fallback), FromList(markup, b, isRoot, fallback))
  {
    ExpansionsAppend(markup, a, b, isRoot, fallback);
    JoinAppend(Expansions(markup, a, isRoot, fallback), Expansions(markup, b, isRoot, fallback));
  }

  /** A list of one item expands to that item's expansion. */
  lemma FromListSingle(markup: Record -> Option<string>, item: Value, isRoot: bool, fallback: Fallback)
    ensures FromList(markup, [item], isRoot, fallback) == FromItem(markup, item, isRoot, fallback)
  {
    assert Expansions(markup, [item], isRoot, fallback) == [FromItem(markup, item, isRoot, fallback)];
    JoinSingle(FromItem(markup, item, isRoot, fallback));
  }

  /** Expanding two items is expanding each on its own and joining the two. */
  lemma FromListPair(markup: Record -> Option<string>, x: Value, y: Value, isRoot: bool, fallback: Fallback)
    ensures FromList(markup, [x, y], isRoot, fallback)
            == Both(FromItem(markup, x, isRoot, fallback), FromItem(markup, y, isRoot, fallback))
  {
    assert [x, y] == [x] + [y];
    FromListAppend(markup, [x], [y], isRoot, fallback);
    FromListSingle(markup, x, isRoot, fallback);
    FromListSingle(markup, y, isRoot, fallback);
  }

  /** The list expands when, and only when, every item has a record (it is
      not null or undefined, nor an object with an own `valueOf`) and the
      markup can be built for every item's record. */
  lemma FromListDefined(markup: Record -> Option<string>, items: seq<Value>, isRoot: bool, fallback: Fallback)
    ensures FromList(markup, items, isRoot, fallback).Some?
            <==> forall i :: 0 <= i < |items| ==> Normalise(items[i]).Some? && markup(Normalise(items[i]).value).Some?
  {
    var parts := Expansions(markup, items, isRoot, fallback);
    assert forall i :: 0 <= i < |items| ==>
      (parts[i].Some? <==> Normalise(items[i]).Some? && markup(Normalise(items[i]).value).Some?);
  }

  /** A null or undefined item anywhere in the list makes the whole list
      throw, whatever the markup; at a sub-template this failure reaches
      the enclosing expansion through its markup. */
  lemma NullItemThrows(markup: Record -> Option<string>, items: seq<Value>, k: nat, isRoot: bool, fallback: Fallback)
    requires k < |items| && items[k].Null?
    ensures FromList(markup, items, isRoot, fallback).None?
  {
    assert Expansions(markup, items, isRoot, fallback)[k].None?;
  }

  /** Data that is not an array behaves as the one-element list holding it. */
  lemma NonArrayDataIsOneItem(markup: Record -> Option<string>, data: Value, isRoot: bool, fallback: Fallback)
    requires !data.Arr?
    ensures FromList(markup, AsList(data), isRoot, fallback) == FromItem(markup, data, isRoot, fallback)
  {
    FromListSingle(markup, data, isRoot, fallback);
  }

  /** An empty data array gives the empty string: no copy of the template. */
  lemma EmptyDataArray(markup: Record -> Option<string>, isRoot: bool, fallback: Fallback)
    ensures FromList(markup, AsList(Arr([])), isRoot, fallback) == Some("")
  {
    assert Expansions(markup, [], isRoot, fallback) == [];
  }

  /** A scalar item expands exactly as the record `{value: item}`, and
      throws only when its markup does. */
  lemma ScalarItemIsValueRecord(markup: Record -> Option<string>, item: Value, isRoot: bool, fallback: Fallback)
    requires IsScalar(item)
    ensures FromItem(markup, item, isRoot, fallback) == FromItem(markup, Obj(map["value" := item]), isRoot, fallback)
    ensures FromItem(markup, item, isRoot, fallback).Some? <==> markup(map["value" := item]).Some?
  {
  }

  /** In the record of a string or number item, `${value}` resolves to the
      item itself. */
  lemma ScalarValueResolves(item: Value, rest: string, isRoot: bool, fallback: Fallback)
    requires item.Str? || item.Num?
    ensures Normalise(item).Some?
    ensures var vals := Normalise(item).value;
            Replacing(Braced("value") + rest, vals, isRoot, fallback)
            == PrimitiveText(item).value + Replacing(rest, vals, isRoot, fallback)
  {
    var vals := Normalise(item).value;
    assert vals == map["value" := item];
    ReplacingPlaceholder("value", rest, vals, isRoot, fallback);
  }

  /** The nested expansion of a sub-template (no `isRoot`) never inserts
      `notFoundValue`, whatever it is set to: unresolved placeholders are left
      for the enclosing expansion. */
  lemma NestedListIgnoresFallback(markup: Record -> Option<string>, items: seq<Value>, fallback: Fallback)
    ensures FromList(markup, items, false, fallback) == FromList(markup, items, true, NullFallback)
  {
    forall i | 0 <= i < |items|
      ensures FromItem(markup, items[i], false, fallback) == FromItem(markup, items[i], true, NullFallback)
    {
      var vals := Normalise(items[i]);
      if vals.Some? && markup(vals.value).Some? {
        NestedNeverDefaults(markup(vals.value).value, vals.value, fallback);
      }
    }
    assert Expansions(markup, items, false, fallback) == Expansions(markup, items, true, NullFallback);
  }

  lemma ElementExpansionsAppend(e1: seq<string>, e2: seq<string>, render: (string, bool, Record) -> Option<string>,
                                data: Value, fallback: Fallback, repeatSubMatch: bool)
    ensures ElementExpansions(e1 + e2, render, data, fallback, repeatSubMatch)
            == ElementExpansions(e1, render, data, fallback, repeatSubMatch)
               + ElementExpansions(e2, render, data, fallback, repeatSubMatch)
  {
    MapAppend(html => ElementExpansion(html, render, data, fallback, repeatSubMatch), e1, e2);
  }


  /** Selected elements are expanded one after the other, in selection
      order, and each against the whole data at root level. */
  lemma AsTemplateAppend(e1: seq<string>, e2: seq<string>, render: (string, bool, Record) -> Option<string>, data: Value,
                         fallback: Fallback, repeatSubMatch: bool)
    ensures AsTemplate(e1 + e2, render, data, fallback, repeatSubMatch)
            == Both(AsTemplate(e1, render, data, fallback, repeatSubMatch),
                    AsTemplate(e2, render, data, fallback, repeatSubMatch))
  {
    ElementExpansionsAppend(e1, e2, render, data, fallback, repeatSubMatch);
    JoinAppend(ElementExpansions(e1, render, data, fallback, repeatSubMatch),
               ElementExpansions(e2, render, data, fallback, repeatSubMatch));
  }

  /** One selected element: its expansion at root level, with the fallback. */
  lemma AsTemplateSingle(html: string, render: (string, bool, Record) -> Option<string>, data: Value,
                         fallback: Fallback, repeatSubMatch: bool)
    ensures AsTemplate([html], render, data, fallback, repeatSubMatch)
            == FromList(ElementMarkup(render, html, repeatSubMatch), AsList(data), true, fallback)
  {
    var x := ElementExpansion(html, render, data, fallback, repeatSubMatch);
    assert ElementExpansions([html], render, data, fallback, repeatSubMatch) == [x];
    JoinSingle(x);
  }
}

=== FILE: numbers.dfy ===
/** Decimal text of integers: the string a JavaScript number becomes when
    the replacement callback returns it. This agrees with JavaScript for
    integers of magnitude at most 2^53; larger integers are idealised as
    their exact decimal text (JavaScript prints fewer significant digits,
    and from 1e21 on uses exponent notation). */
module Numbers {

  /** The character of the decimal digit d. */
  function Digit(d: nat): (c: char)
    requires d < 10
    ensures '0' <= c <= '9'
    ensures c as int - '0' as int == d
  {
    ('0' as int + d) as char
  }

  predicate IsDigits(s: string) {
    forall i :: 0 <= i < |s| ==> '0' <= s[i] <= '9'
  }

  /** Shortest decimal text of n, most significant digit first. */
  function NatToString(n: nat): (r: string)
    ensures r != [] && IsDigits(r)
    ensures n == 0 ==> r == "0"
    ensures n > 0 ==> r != [] && r[0] != '0'
    decreases n
  {
    if n < 10 then [Digit(n)] else NatToString(n / 10) + [Digit(n % 10)]
  }

  /** Reads a string of digits back as a number: the inverse of NatToString. */
  function ParseNat(s: string): nat
    requires IsDigits(s)
    decreases |s|
  {
    if s == [] then 0 else 10 * ParseNat(s[..|s| - 1]) + (s[|s| - 1] as int - '0' as int)
  }

  lemma {:induction false} ParseNatToString(n: nat)
    ensures ParseNat(NatToString(n)) == n
    decreases n
  {
    if n >= 10 {
      var p := NatToString(n / 10);
      assert (p + [Digit(n % 10)])[..|p|] == p;
      ParseNatToString(n / 10);
    }
  }

  lemma NatToStringInjective(m: nat, n: nat)
    requires NatToString(m) == NatToString(n)
    ensures m == n
  {
    ParseNatToString(m);
    ParseNatToString(n);
  }

  /** Decimal text of n, with a leading '-' when n is negative. */
  function IntToString(n: int): (r: string)
    ensures n >= 0 ==> IsDigits(r)
    ensures n < 0 ==> |r| >= 2 && r[0] == '-' && IsDigits(r[1..])
    ensures n > 0 ==> r != [] && r[0] != '0'
    ensures n < 0 ==> r[1] != '0'
    ensures n == 0 ==> r == "0"
  {
    if n < 0 then "-" + NatToString(-n) else NatToString(n)
  }

  /** Reads the text IntToString produces back as an integer. */
  function ParseInt(s: string): int
    requires IsDigits(s) || (|s| >= 1 && s[0] == '-' && IsDigits(s[1..]))
  {
    if IsDigits(s) then ParseNat(s) else -(ParseNat(s[1..]) as int)
  }

  lemma ParseIntToString(n: int)
    ensures ParseInt(IntToString(n)) == n
  {
    if n < 0 {
      assert !IsDigits(IntToString(n));
      assert IntToString(n)[1..] == NatToString(-n);
      ParseNatToString(-n);
    } else {
      ParseNatToString(n);
    }
  }
}

=== FILE: placeholders.dfy ===
/** Placeholder substitution: one left-to-right pass of the default pattern
    `\${([^}]+)}` over a string, each match replaced by the callback's
    value. The pattern is a '$', a '{', one or more characters other than
    '}', then '}'. */
module Placeholders {
  import opened Numbers
  import opened Values

  /** The `notFoundValue` setting: a default text, or `null`, which keeps
      the matched text. */
  datatype Fallback = NullFallback | TextFallback(text: string)

  /** What the scan splits a template into: a character outside every match,
      or one match with its captured name. */
  datatype Piece = Char(c: char) | Placeholder(name: string)

  /** t is exactly one match of the pattern. */
  predicate IsPlaceholder(t: string) {
    && |t| >= 4
    && t[0] == '$' && t[1] == '{'
    && t[|t| - 1] == '}'
    && forall k :: 2 <= k < |t| - 1 ==> t[k] != '}'
  }

  /** A name the pattern can capture: `[^}]+`. */
  predicate ValidName(n: string) {
    n != [] && forall k :: 0 <= k < |n| ==> n[k] != '}'
  }

  function Braced(name: string): (t: string)
    ensures ValidName(name) ==> IsPlaceholder(t)
  {
    "${" + name + "}"
  }

  /** The text a piece was scanned from. */
  function PieceSource(p: Piece): string {
    match p
    case Char(c) => [c]
    case Placeholder(n) => Braced(n)
  }

  function Source(ps: seq<Piece>): string
    decreases |ps|
  {
    if ps == [] then [] else PieceSource(ps[0]) + Source(ps[1..])
  }

  /** The first index at or after i holding '}', or |s| when there is none. */
  function CloseFrom(s: string, i: nat): (j: nat)
    requires i <= |s|
    ensures i <= j <= |s|
    ensures j < |s| ==> s[j] == '}'
    ensures forall k :: i <= k < j ==> s[k] != '}'
    decreases |s| - i
  {
    if i == |s| || s[i] == '}' then i else CloseFrom(s, i + 1)
  }

  /** The length of the match of the pattern that starts at the front of s,
      if there is one. `[^}]+` cannot step over a '}', so the match, when
      there is one, ends at the first '}' after the "${". */
  function MatchLength(s: string): (r: Option<nat>)
    ensures r.Some? ==> r.value <= |s| && IsPlaceholder(s[..r.value])
    ensures forall n :: 0 <= n <= |s| && IsPlaceholder(s[..n]) ==> r == Some(n)
  {
    if |s| >= 2 && s[0] == '$' && s[1] == '{' then
      var j := CloseFrom(s, 2);
      if 2 < j < |s| then
        Some(j + 1)
      else
        None
    else
      None
  }

  /** The regular-expression scan: at each position, either a match (then
      scanning resumes after it) or one character copied through. */
  function Scan(s: string): (r: seq<Piece>)
    ensures Source(r) == s
    ensures forall i :: 0 <= i < |r| && r[i].Placeholder? ==> ValidName(r[i].name)
    decreases |s|
  {
    if s == [] then []
    else
      match MatchLength(s)
      case Some(n) =>
        var name := s[2..n - 1];
        assert s[..n] == Braced(name);
        assert s == s[..n] + s[n..];
        [Placeholder(name)] + Scan(s[n..])
      case None =>
        assert s == [s[0]] + s[1..];
        [Char(s[0])] + Scan(s[1..])
  }

  /** A field that `typeof` reports as "string" or "number". */
  predicate Substitutable(vals: Record, name: string) {
    name in vals && PrimitiveText(vals[name]).Some?
  }

  /** The replacement callback for one match capturing `name`. */
  function Resolve(name: string, vals: Record, isRoot: bool, fallback: Fallback): string {
    if Substitutable(vals, name) then PrimitiveText(vals[name]).value
    else if isRoot && fallback.TextFallback? then fallback.text
    else Braced(name)
  }

  function Render(ps: seq<Piece>, vals: Record, isRoot: bool, fallback: Fallback): string
    decreases |ps|
  {
    if ps == [] then []
    else
      var head := match ps[0]
        case Char(c) => [c]
        case Placeholder(n) => Resolve(n, vals, isRoot, fallback);
      head + Render(ps[1..], vals, isRoot, fallback)
  }

  /** `template.replace(replaceRegex, callback)` with the default pattern. */
  function Replacing(template: string, vals: Record, isRoot: bool, fallback: Fallback): string {
    Render(Scan(template), vals, isRoot, fallback)
  }

  /** No match starts anywhere in s. */
  predicate NoOpening(s: string) {
    forall i :: 0 <= i < |s| - 1 ==> !(s[i] == '$' && s[i + 1] == '{')
  }

  /** The characters of t, each scanned as text. */
  function Chars(t: string): (ps: seq<Piece>)
    ensures |ps| == |t|
    ensures forall i :: 0 <= i < |t| ==> ps[i] == Char(t[i])
    decreases |t|
  {
    if t == [] then [] else [Char(t[0])] + Chars(t[1..])
  }

  /** Text in front of which no match starts is scanned character by
      character, and the scan of what follows is unaffected by it. */
  lemma {:induction false} ScanPlainPrefix(t: string, u: string)
    requires forall i :: 0 <= i < |t| ==> MatchLength((t + u)[i..]).None?
    ensures Scan(t + u) == Chars(t) + Scan(u)
    decreases |t|
  {
    if t != [] {
      var s := t + u;
      var tail := t[1..] + u;
      assert s[0..] == s;
      assert s[1..] == tail;
      forall i | 0 <= i < |t[1..]|
        ensures MatchLength(tail[i..]).None?
      {
        assert tail[i..] == s[i + 1..];
      }
      ScanPlainPrefix(t[1..], u);
    } else {
      assert t + u == u;
    }
  }

  lemma {:induction false} RenderAppend(a: seq<Piece>, b: seq<Piece>, vals: Record, isRoot: bool, fallback: Fallback)
    ensures Render(a + b, vals, isRoot, fallback) == Render(a, vals, isRoot, fallback) + Render(b, vals, isRoot, fallback)
    decreases |a|
  {
    if a == [] {
      assert a + b == b;
    } else {
      assert (a + b)[1..] == a[1..] + b;
      RenderAppend(a[1..], b, vals, isRoot, fallback);
    }
  }

  lemma {:induction false} RenderChars(t: string, vals: Record, isRoot: bool, fallback: Fallback)
    ensures Render(Chars(t), vals, isRoot, fallback) == t
    decreases |t|
  {
    if t != [] {
      RenderChars(t[1..], vals, isRoot, fallback);
    }
  }

  /** Text in front of which no match starts is copied through unchanged. */
  lemma ReplacingPlainPrefix(t: string, u: string, vals: Record, isRoot: bool, fallback: Fallback)
    requires forall i :: 0 <= i < |t| ==> MatchLength((t + u)[i..]).None?
    ensures Replacing(t + u, vals, isRoot, fallback) == t + Replacing(u, vals, isRoot, fallback)
  {
    ScanPlainPrefix(t, u);
    RenderAppend(Chars(t), Scan(u), vals, isRoot, fallback);
    RenderChars(t, vals, isRoot, fallback);
  }

  /** Text without a '$' in front of the rest is copied through unchanged. */
  lemma PlainTextPrefix(t: string, u: string, vals: Record, isRoot: bool, fallback: Fallback)
    requires '$' !in t
    ensures Replacing(t + u, vals, isRoot, fallback) == t + Replacing(u, vals, isRoot, fallback)
  {
    forall i | 0 <= i < |t|
      ensures MatchLength((t + u)[i..]).None?
    {
      assert (t + u)[i..][0] == t[i];
    }
    ReplacingPlainPrefix(t, u, vals, isRoot, fallback);
  }

  /** A template with no "${" in it is returned unchanged, whatever the
      record, the level and the fallback. */
  lemma PlainTextUnchanged(s: string, vals: Record, isRoot: bool, fallback: Fallback)
    requires NoOpening(s)
    ensures Replacing(s, vals, isRoot, fallback) == s
  {
    forall i | 0 <= i < |s|
      ensures MatchLength((s + [])[i..]).None?
    {
      assert (s + [])[i..] == s[i..];
    }
    ReplacingPlainPrefix(s, [], vals, isRoot, fallback);
    assert s + [] == s;
  }

  /** Without any '}' there is no match: an unterminated "${abc" is kept. */
  lemma NoCloseUnchanged(s: string, vals: Record, isRoot: bool, fallback: Fallback)
    requires '}' !in s
    ensures Replacing(s, vals, isRoot, fallback) == s
  {
    forall i | 0 <= i < |s|
      ensures MatchLength((s + [])[i..]).None?
    {
      var rest := (s + [])[i..];
      assert rest == s[i..];
    }
    ReplacingPlainPrefix(s, [], vals, isRoot, fallback);
    assert s + [] == s;
  }

  /** "${}" is no match (the name needs a character) and is kept. */
  lemma EmptyNameKept(rest: string, vals: Record, isRoot: bool, fallback: Fallback)
    ensures Replacing("${}" + rest, vals, isRoot, fallback) == "${}" + Replacing(rest, vals, isRoot, fallback)
  {
    var s := "${}" + rest;
    forall i | 0 <= i < 3
      ensures MatchLength(s[i..]).None?
    {
    }
    ReplacingPlainPrefix("${}", rest, vals, isRoot, fallback);
  }

  /** One match `${name}` at the front: it is replaced by the callback's
      value, and the rest is scanned on from just after it. */
  lemma ScanPlaceholder(name: string, rest: string)
    requires ValidName(name)
    ensures Scan(Braced(name) + rest) == [Placeholder(name)] + Scan(rest)
  {
    var s := Braced(name) + rest;
    var n := |name| + 3;
    assert s[..n] == Braced(name);
    assert IsPlaceholder(s[..n]);
    assert MatchLength(s) == Some(n);
    assert s[2..n - 1] == name by {
      assert s[2..n - 1] == Braced(name)[2..n - 1];
    }
    assert s[n..] == rest;
    assert s != [];
  }

  /** The four outcomes of the callback for a well-formed placeholder, with
      the text after it scanned on independently. */
  lemma ReplacingPlaceholder(name: string, rest: string, vals: Record, isRoot: bool, fallback: Fallback)
    requires ValidName(name)
    ensures var out := Replacing(Braced(name) + rest, vals, isRoot, fallback);
            var tail := Replacing(rest, vals, isRoot, fallback);
            && (name in vals && vals[name].Str? ==> out == vals[name].s + tail)
            && (name in vals && vals[name].Num? ==> out == IntToString(vals[name].n) + tail)
            && (!Substitutable(vals, name) && isRoot && fallback.TextFallback? ==> out == fallback.text + tail)
            && (!Substitutable(vals, name) && (!isRoot || fallback.NullFallback?) ==> out == Braced(name) + tail)
  {
    ScanPlaceholder(name, rest);
    var ps := [Placeholder(name)] + Scan(rest);
    assert ps[1..] == Scan(rest);
  }

  /** Without a default, rendering keeps every unresolved placeholder. */
  lemma {:induction false} RenderIgnoresFallback(ps: seq<Piece>, vals: Record, fallback: Fallback)
    ensures Render(ps, vals, false, fallback) == Render(ps, vals, true, NullFallback)
    decreases |ps|
  {
    if ps != [] {
      RenderIgnoresFallback(ps[1..], vals, fallback);
    }
  }

  /** A nested expansion (isRoot false) never inserts `notFoundValue`: it
      behaves as a root expansion whose `notFoundValue` is null. */
  lemma NestedNeverDefaults(s: string, vals: Record, fallback: Fallback)
    ensures Replacing(s, vals, false, fallback) == Replacing(s, vals, true, NullFallback)
  {
    RenderIgnoresFallback(Scan(s), vals, fallback);
  }

  /** Rendering with nothing to substitute and no default gives back the
      scanned text. */
  lemma {:induction false} RenderKeepsSource(ps: seq<Piece>, vals: Record, isRoot: bool, fallback: Fallback)
    requires !isRoot || fallback.NullFallback?
    requires forall k :: k in vals ==> PrimitiveText(vals[k]).None?
    ensures Render(ps, vals, isRoot, fallback) == Source(ps)
    decreases |ps|
  {
    if ps != [] {
      RenderKeepsSource(ps[1..], vals, isRoot, fallback);
    }
  }

  /** When no field is a string or number and no default applies, every
      placeholder survives verbatim for a later pass over the markup. */
  lemma UnresolvedSurvive(s: string, vals: Record, isRoot: bool, fallback: Fallback)
    requires !isRoot || fallback.NullFallback?
    requires forall k :: k in vals ==> PrimitiveText(vals[k]).None?
    ensures Replacing(s, vals, isRoot, fallback) == s
  {
    RenderKeepsSource(Scan(s), vals, isRoot, fallback);
  }

  /** Substitution is one pass: a value that itself reads "${b}" is inserted
      literally and not resolved again, although b has a value. */
  lemma SinglePass()
    ensures var vals := map["a" := Str("${b}"), "b" := Str("x")];
            && Replacing("${a}", vals, true, TextFallback("")) == "${b}"
            && Replacing(Replacing("${a}", vals, true, TextFallback("")), vals, true, TextFallback("")) == "x"
  {
    var vals := map["a" := Str("${b}"), "b" := Str("x")];
    var f := TextFallback("");
    assert Braced("a") == "${a}";
    assert Braced("b") == "${b}";
    StringField("a", vals, true, f);
    StringField("b", vals, true, f);
  }

  /** A template that is one placeholder naming a string field becomes
      that string. */
  lemma StringField(name: string, vals: Record, isRoot: bool, fallback: Fallback)
    requires ValidName(name) && name in vals && vals[name].Str?
    ensures Replacing(Braced(name), vals, isRoot, fallback) == vals[name].s
  {
    ReplacingPlaceholder(name, "", vals, isRoot, fallback);
    assert Braced(name) + "" == Braced(name);
    assert Replacing("", vals, isRoot, fallback) == "";
    assert vals[name].s + "" == vals[name].s;
  }

  /** A placeholder naming a string field becomes that string, in front of
      the rest replaced on its own. */
  lemma StringFieldThen(name: string, rest: string, vals: Record, isRoot: bool, fallback: Fallback)
    requires ValidName(name) && name in vals && vals[name].Str?
    ensures Replacing(Braced(name) + rest, vals, isRoot, fallback) == vals[name].s + Replacing(rest, vals, isRoot, fallback)
  {
    ReplacingPlaceholder(name, rest, vals, isRoot, fallback);
  }

  /** Plain text followed by a placeholder naming a string field: the text
      is copied, the placeholder becomes the field, and the rest is replaced
      on its own. */
  lemma TextThenField(t: string, name: string, rest: string, vals: Record, isRoot: bool, fallback: Fallback)
    requires '$' !in t
    requires ValidName(name) && name in vals && vals[name].Str?
    ensures Replacing(t + Braced(name) + rest, vals, isRoot, fallback)
            == t + vals[name].s + Replacing(rest, vals, isRoot, fallback)
  {
    assert t + Braced(name) + rest == t + (Braced(name) + rest);
    PlainTextPrefix(t, Braced(name) + rest, vals, isRoot, fallback);
    StringFieldThen(name, rest, vals, isRoot, fallback);
  }

  /** Text without a '$' is returned unchanged. */
  lemma PlainText(t: string, vals: Record, isRoot: bool, fallback: Fallback)
    requires '$' !in t
    ensures Replacing(t, vals, isRoot, fallback) == t
  {
    PlainTextPrefix(t, "", vals, isRoot, fallback);
    assert t + "" == t;
    assert Replacing("", vals, isRoot, fallback) == "";
  }

  /** Two string fields between runs of plain text: each placeholder
      becomes its field and the text around them is copied. */
  lemma TwoStringFields(open: string, a: string, sep: string, b: string, close: string,
                        vals: Record, isRoot: bool, fallback: Fallback)
    requires '$' !in open && '$' !in sep && '$' !in close
    requires ValidName(a) && a in vals && vals[a].Str?
    requires ValidName(b) && b in vals && vals[b].Str?
    ensures Replacing(open + Braced(a) + sep + Braced(b) + close, vals, isRoot, fallback)
            == open + vals[a].s + sep + vals[b].s + close
  {
    var rest := sep + Braced(b) + close;
    var sa, sb := vals[a].s, vals[b].s;
    assert open + Braced(a) + sep + Braced(b) + close == open + Braced(a) + rest;
    assert Replacing(close, vals, isRoot, fallback) == close by {
      PlainText(close, vals, isRoot, fallback);
    }
    assert Replacing(rest, vals, isRoot, fallback) == sep + sb + close by {
      TextThenField(sep, b, close, vals, isRoot, fallback);
    }
    assert Replacing(open + Braced(a) + rest, vals, isRoot, fallback) == open + sa + (sep + sb + close) by {
      TextThenField(open, a, rest, vals, isRoot, fallback);
    }
  }

  /** A whole template: "<span>${greeting}, ${name}!</span>" against
      `{greeting: "Hi", name: "Sam"}` gives "<span>Hi, Sam!</span>". */
  lemma GreetingExample()
    ensures Replacing("<span>" + Braced("greeting") + ", " + Braced("name") + "!</span>",
                      map["greeting" := Str("Hi"), "name" := Str("Sam")], true, TextFallback(""))
            == "<span>" + "Hi" + ", " + "Sam" + "!</span>"
  {
    TwoStringFields("<span>", "greeting", ", ", "name", "!</span>",
                    map["greeting" := Str("Hi"), "name" := Str("Sam")], true, TextFallback(""));
  }

  /** A missing field at the root: the default "" by default, the matched
      text when `notFoundValue` is null. */
  lemma MissingFieldExample()
    ensures Replacing("${x}", map[], true, TextFallback("")) == ""
    ensures Replacing("${x}", map[], true, NullFallback) == "${x}"
  {
    assert Braced("x") + "" == "${x}";
    ReplacingPlaceholder("x", "", map[], true, TextFallback(""));
    ReplacingPlaceholder("x", "", map[], true, NullFallback);
    assert Replacing("", map[], true, TextFallback("")) == "";
    assert Replacing("", map[], true, NullFallback) == "";
  }
}

=== FILE: values.dfy ===
/** The data the plugin is given: JavaScript values, told apart by a tag
    instead of by `typeof` and `instanceof`. */
module Values {
  import opened Numbers

  datatype Option<T> = None | Some(value: T)

  /** A JavaScript value as the plugin inspects it. `Null` stands for both
      `null` and `undefined`; numbers are integral. */
  datatype Value =
    | Str(s: string)
    | Num(n: int)
    | Bool(b: bool)
    | Null
    | Arr(items: seq<Value>)
    | Obj(fields: map<string, Value>)

  /** The properties a record offers to `vals[sub]` and to `for (key in item)`. */
  type Record = map<string, Value>

  /** A value that is not an object (`item instanceof Object === false`) and
      can be read with `valueOf()`. */
  predicate IsScalar(v: Value) {
    v.Str? || v.Num? || v.Bool?
  }

  /** The text a field contributes when its `typeof` is "string" or "number";
      None for every other kind of value. */
  function PrimitiveText(v: Value): (r: Option<string>)
    ensures r.Some? <==> v.Str? || v.Num?
  {
    match v
    case Str(s) => Some(s)
    case Num(n) => Some(IntToString(n))
    case _ => None
  }

  /** The properties of an array read as a record: each index, written in
      decimal, names its element, "length" names the element count, and
      there is no other property. */
  function IndexFields(xs: seq<Value>): (r: Record)
    ensures "length" in r && r["length"] == Num(|xs|)
    ensures forall j :: 0 <= j < |xs| ==> NatToString(j) in r && r[NatToString(j)] == xs[j]
    ensures forall k :: k in r ==> k == "length" || exists j :: 0 <= j < |xs| && k == NatToString(j)
  {
    IndicesNameOneElement(xs);
    (map j | 0 <= j < |xs| :: NatToString(j) := xs[j])["length" := Num(|xs|)]
  }

  /** Distinct indices have distinct names, none of which is "length". */
  lemma IndicesNameOneElement(xs: seq<Value>)
    ensures forall j, l :: 0 <= j < |xs| && 0 <= l < |xs| && NatToString(j) == NatToString(l) ==> xs[j] == xs[l]
    ensures forall j :: 0 <= j < |xs| ==> NatToString(j) != "length"
  {
    forall j, l | 0 <= j < |xs| && 0 <= l < |xs| && NatToString(j) == NatToString(l)
      ensures xs[j] == xs[l]
    {
      NatToStringInjective(j, l);
    }
    assert "length"[0] !in "0123456789";
  }

  /** A decimal text with a leading zero, such as "00" or "01", names no
      element of an array: such a placeholder resolves as a missing field. */
  lemma LeadingZeroNotIndex(xs: seq<Value>, k: string)
    requires |k| >= 2 && k[0] == '0'
    ensures k !in IndexFields(xs)
  {
    forall j | 0 <= j < |xs|
      ensures k != NatToString(j)
    {
    }
  }

  /** The record an item is expanded against: a scalar becomes
      `{value: item}`, an object or array is read as it is. `this.valueOf()`
      throws on a null or undefined item, and on an object whose own
      `valueOf` property hides the inherited method (no value here is a
      function, so such a property is never callable); None stands for
      the throw. */
  function Normalise(item: Value): (r: Option<Record>)
    ensures r.None? <==> item.Null? || (item.Obj? && "valueOf" in item.fields)
    ensures r.Some? && item.Obj? ==> r.value == item.fields
  {
    match item
    case Null => None
    case Obj(fields) => if "valueOf" in fields then None else Some(fields)
    case Arr(items) => Some(IndexFields(items))
    case _ => Some(map["value" := item])
  }
}
